=== FILE: README.md ===
# OpenFGA on Aurora DSQL: retry, ledger bootstrap and connection-string rewrite

This project is a Dafny model of the glue between OpenFGA and an Aurora DSQL
cluster. It covers four small pieces.

- **OCC handling.** `isOCCError` decides whether an error is an optimistic
  concurrency conflict. `withOCCRetry` calls an operation up to five times,
  retrying it on such conflicts, with exponential backoff plus jitter (`occ.dfy`).
- **Goose ledger bootstrap.** `EnsureGooseTable` and its copy
  `ensureGooseTableForDSQL` create `goose_db_version` if needed. They then
  insert the version-0 sentinel row if the ledger is empty (`ledger.dfy`,
  `migrate.dfy`).
- **`dsql://` → `postgres://` rewrite.** `PrepareDSQLURI`,
  `PreparePostgresURI` and the first half of `prepareDSQLMigration` swap the
  scheme and set the credentials (username and IAM token). They force
  `sslmode=require` and drop `region` (`uri.dfy`, `postgres.dfy`,
  `internal.dfy`, `migrate.dfy`).
- **Pool-setting override.** In `initDSQLDB`, nonzero storage-config fields
  override the connector's parsed pool settings (`postgres.dfy`).

Go errors are modelled as `Error = Raw(text) | Wrapped(context, cause)`. The
`Wrapped` form is `fmt.Errorf("<context>: %w", cause)`, and `Message` gives
the text that `Error()` returns. A nil error is `None`.

External code is modelled as oracles held in `Effects.Env`:

- the IAM signer `GenerateTokenConnString`;
- `url.Parse`;
- `(*url.URL).String`;
- `goose.OpenDBWithDriver`.

Each preparer and bootstrap returns the sequence of `Step`s it issued. That
sequence is how the contracts say what was done and what was not: no insert,
no rewrite after a signer failure, and which URI the bootstrap connected to.

A parsed URL is the record `Url(rest, user, query)`:

- `user` is the userinfo of section 3.2.1 of RFC 3986;
- `query` is the `url.Values` map of section 3.4;
- `rest` stands for everything the rewrite leaves alone.

The database seen by the bootstrap is `Db(table)`. `table` is `None` when
`goose_db_version` is absent, and otherwise holds its rows. A `Faults` value
gives each of the three statements the error it fails with, if any. A failed
statement has no effect on the database.

In `withOCCRetry`, the operation is the oracle `fn: nat -> Option<Error>`:
`fn(k)` is what the k-th call returns. The jitter is a nondeterministic choice
in `[0, base/2)`. Sleeps are returned as a sequence of durations in
nanoseconds.

## Model

| member | source | states |
|---|---|---|
| `Errors.Message` | pkg/storage/postgres/dsql.go:23-39 | `err.Error()` of a `%w` wrap is the context, then ": ", then the cause's own text, which therefore ends the message; a plain error's text is itself |
| `Errors.Contains` | pkg/storage/postgres/dsql.go:24 | `strings.Contains` as a left-to-right scan is true exactly when the needle occurs at some position of the text |
| `Errors.TrimPrefix` | pkg/storage/postgres/dsql.go:52 | with the prefix present, putting it back in front of the result gives the input; without it, the input is returned unchanged |
| `Occ.IsOCCError` | pkg/storage/postgres/dsql.go:19-25 | nil is never a conflict; a non-nil error is one exactly when its text contains `OC000`, `OC001` or `40001`; every other error is terminal |
| `Occ.WrappedConflictIsConflict` | pkg/storage/postgres/dsql.go:23-24 | wrapping a conflict with `%w` under any context keeps it classified as a conflict |
| `Occ.ExhaustionErrorIsConflict` | pkg/storage/postgres/dsql.go:33-39 | the "OCC retry limit exceeded" error itself classifies as a conflict, because it wraps one |
| `Occ.BaseBackoff` | pkg/storage/postgres/dsql.go:36 | for each of the attempts 0 to 4 that occur, the base backoff is at least 10 ms |
| `Occ.BackoffDoubles` | pkg/storage/postgres/dsql.go:36 | within the five attempts, each attempt's base is twice the previous one |
| `Occ.BackoffIncreasing` | pkg/storage/postgres/dsql.go:36-37 | bases strictly increase with the attempt, and the sleep ranges are disjoint and ordered: every sleep possible after an attempt is shorter than every sleep possible after a later one |
| `Occ.WithOCCRetry` | pkg/storage/postgres/dsql.go:29-40 | `fn` is called 1 to 5 times, and every call but the last returned a conflict. A nil or non-conflict result at call k is returned as is, after exactly k−1 sleeps. If all 5 calls conflict, the result is "OCC retry limit exceeded" wrapping the last error, after exactly 5 sleeps. The sleep after attempt i lies in [10·2^i ms, 15·2^i ms) |
| `Occ.TotalSleepBounds` | pkg/storage/postgres/dsql.go:32-38 | n sleeps total at least 10·(2^n−1) ms and, for n > 0, less than 15·(2^n−1) ms: between 310 ms and 465 ms after five conflicts |
| `Uri.ToPostgresScheme` | pkg/storage/postgres/dsql.go:52 | the result starts with `postgres`: it is `postgres` plus the input without its leading `dsql`, or plus the whole input when there is no such prefix |
| `Uri.ToDsqlScheme` | internal/dsql/dsql.go:26 | the result starts with `dsql`: it is `dsql` plus the text without its leading `postgres`, or plus the whole text |
| `Uri.DsqlRoundTrip` | internal/dsql/dsql.go:20-26 | a `dsql`-prefixed URI survives the swap to `postgres` and back unchanged |
| `Uri.PostgresRoundTrip` | internal/dsql/dsql.go:20-34 | a `postgres`-prefixed string survives the swap to `dsql` and back unchanged |
| `Uri.RewriteQuery` | pkg/storage/postgres/dsql.go:64-67 | the query afterwards has `sslmode` exactly `require` and no `region`. Every other key keeps its values, and no new key appears |
| `Uri.QueryRewrittenIsRewriteQuery` | internal/dsql/dsql.go:52-55 | a map meets that description if and only if it is the rewritten query |
| `Uri.RewriteQueryIdempotent` | pkg/storage/migrate/dsql.go:48-51 | rewriting an already rewritten query changes nothing |
| `Uri.Authenticate` | pkg/storage/postgres/dsql.go:62-67 | the URL gets exactly (username, token) as userinfo and the rewritten query; the rest is unchanged |
| `Uri.UriUserOrDefault` | pkg/storage/postgres/dsql.go:58-61 | the username is the URI's whenever userinfo is present, even an empty one; otherwise `admin` |
| `Postgres.PrepareDSQLURI` | pkg/storage/postgres/dsql.go:44-70 | the token is requested first, for the input exactly. A signer failure returns a "generate DSQL auth token" error and nothing is parsed. A parse failure returns "parse database URI". Success happens exactly when both succeed; the URL then carries the URI's username or `admin`, the token as password, `sslmode=require`, no `region`, and everything else as parsed |
| `Postgres.Int32` | pkg/storage/postgres/dsql.go:82 | Go's `int32(x)` lies in the 32-bit range and agrees with x modulo 2^32 |
| `Postgres.Int32InRange` | pkg/storage/postgres/dsql.go:82-85 | counts that fit in 32 bits are unchanged by the conversion |
| `Postgres.ApplyPoolSettings` | pkg/storage/postgres/dsql.go:81-92 | each of MaxConns, MinConns, MaxConnLifetime and MaxConnIdleTime takes the config value if and only if that value is nonzero; otherwise the connector's value is kept |
| `Postgres.WrappedOverrideCanBeZero` | pkg/storage/postgres/dsql.go:81-83 | a nonzero `MaxOpenConns` of 2^32 still overrides, and truncates MaxConns to 0 |
| `Postgres.ZeroConfigKeepsDefaults` | pkg/storage/postgres/dsql.go:81-92 | an all-zero config leaves the connector's settings untouched |
| `Postgres.FullConfigWins` | pkg/storage/postgres/dsql.go:81-92 | an all-nonzero config with 32-bit counts determines the settings whatever the defaults |
| `Postgres.ApplyPoolSettingsIdempotent` | pkg/storage/postgres/dsql.go:81-92 | applying the same config twice equals applying it once |
| `Postgres.InitDSQLDB` | pkg/storage/postgres/dsql.go:74-100 | a connector parse failure gives "parse DSQL URI" and a pool failure "create DSQL pool". Otherwise the pool is created with exactly the overridden settings |
| `InternalDsql.FinalUsername` | internal/dsql/dsql.go:41-49 | the parameter if non-empty; else the URI's username if present and non-empty; else `admin`. It is never empty |
| `InternalDsql.WithUsername` | internal/dsql/dsql.go:25 | `url.User(name)` replaces the userinfo with the name and no password and keeps everything else |
| `InternalDsql.TokenTarget` | internal/dsql/dsql.go:18-27 | without a username, the token URI is the input unchanged and nothing is parsed. With one, a parse failure gives "parse URI for username override"; otherwise the token URI is the printed override URL, carrying that username, turned back to a `dsql`-prefixed string |
| `InternalDsql.TokenTargetIsOverrideUrl` | internal/dsql/dsql.go:20-26 | when the printed override URL starts with `postgres`, swapping the token URI forward again gives exactly that printed URL |
| `InternalDsql.PreparePostgresURI` | internal/dsql/dsql.go:16-58 | the token is signed for the input unchanged when no username is given, and for the overridden `dsql` URI otherwise. Override-parse and signer failures return their wrapped error and no URI, and nothing is issued after them. Once signed, the trace ends with the signing and the parse of the `postgres` text, and a parse failure there gives "parse database URI". Success happens exactly when the token target, the signer and the parse succeed; the URL then has the precedence username, the token as password, `sslmode=require`, no `region`, and the rest as parsed |
| `InternalDsql.SecondParseFailsOnlyWithoutOverride` | internal/dsql/dsql.go:20-38 | a "parse database URI" error is only possible without a username parameter, since otherwise the same text already parsed |
| `InternalDsql.AgreesWithStoragePreparer` | internal/dsql/dsql.go:41-49 | when both see the same signer, without a username parameter and unless the URI has userinfo with an empty name, this preparer and `PrepareDSQLURI` give the same result |
| `InternalDsql.AgreesUpToToken` | internal/dsql/dsql.go:29-55 | with each package's own signer, when both signers succeed and no username parameter is given, the two preparers succeed together and agree on the untouched parts, the query and the username (unless the URI's username is empty); each password is that call's own token |
| `InternalDsql.EmptyUriUsernameDiverges` | pkg/storage/postgres/dsql.go:58-61 | for a URI whose userinfo has an empty name, `PrepareDSQLURI` keeps the empty name while `PreparePostgresURI` uses `admin` |
| `Ledger.EnsureGooseTable` | internal/dsql/dsql.go:71-89 | success leaves the table present and non-empty, and existing rows are never removed. A missing or empty ledger ends with exactly the sentinel (version 0, applied). A fault-free run on a missing or empty ledger issues create, check and insert, in that order, and succeeds. Absent create and check faults, a non-empty ledger is checked, left unchanged, gets no insert, and the call succeeds. A DDL failure gives "create goose table", issues no check or insert and changes nothing. A check failure gives "check goose table" and issues no insert. An insert fault on an empty ledger is returned as "insert initial goose row", with the table left empty, and an insert error can arise only there |
| `Ledger.SecondRunIsNoOp` | internal/dsql/dsql.go:61-89 | after a successful run, any later run leaves the ledger unchanged, and a later run without statement failures succeeds |
| `Ledger.EnsureTwiceIsOnce` | internal/dsql/dsql.go:71-89 | running the bootstrap twice gives the same ledger as running it once |
| `Ledger.FailedRunIsHarmless` | internal/dsql/dsql.go:71-89 | a failed run followed by a clean run ends in the ledger of one clean run |
| `Migrate.EnsureGooseTableForDSQL` | pkg/storage/migrate/dsql.go:71-104 | an open failure gives "open connection" and touches no table. Otherwise the database, error and later steps are exactly those of `EnsureGooseTable`: sentinel on empty, no insert on non-empty, the ledger ready on success |
| `Migrate.PrepareDSQLMigration` | pkg/storage/migrate/dsql.go:25-67 | a signer failure aborts with "generate DSQL auth token" before any parse or bootstrap. The `postgres`-swapped text is what gets parsed. A parse failure gives "parse database URI" and opens nothing. After a successful rewrite the steps are exactly the rewrite's, then the bootstrap's. A bootstrap failure gives "create goose version table" and no config. A config is returned exactly when the signer, the parse and the bootstrap all succeed. On success the config is `pgx`, the DSQL migrations directory and the rewritten URI. That URI is the one the bootstrap connected to, and the ledger is ready |
| `Migrate.PrepareTwiceKeepsLedger` | pkg/storage/migrate/dsql.go:56-58 | after a successful preparation, preparing again leaves the ledger as it was |

## Left out

- `pkg/testfixtures/storage/dsql.go` is a test fixture. It reads the environment and skips tests. Its version lookup returns a hard-coded 6. It has no logic to model.
- IAM token generation, `url.Parse`, `(*url.URL).String` and `goose.OpenDBWithDriver` are foreign code. They are the oracles `token`, `parse`, `format` and `open` in `Effects.Env`. `Query()` is folded into the `parse` oracle: the record's `query` is the map it returns. `Encode()` is not modelled. Percent-encoding, query-parameter ordering and character-level parsing are not modelled. The preparers return the URL record, not the text `String()` would print.
- `dsql.ParseConnectionString` and `dsql.NewPool` are oracles passed to `Postgres.InitDSQLDB`. The returned pool is represented by the settings it was created with.
- SQL execution is abstracted to a ledger state plus per-step failure oracles. The DDL's `id` default (epoch microseconds) and `tstamp` are server-side clock values and are not modelled.
- `Occ.WithOCCRetry`: `time.Sleep` is a recorded duration, and `rand.Int63n` is a nondeterministic choice in its range.
- The code does not call the bootstrap steps through `withOCCRetry`, so the model does not retry them. The code also does not treat a conflicting sentinel insert as a benign duplicate, so neither does the model.
- Bootstrap races between processes are not modelled. The check-then-insert offers no single-sentinel guarantee under interleaving, so the model makes no such claim.
- `assets.DSQLMigrationDir` is not part of this model. Its value is the `migrationsDir` parameter of `Migrate.PrepareDSQLMigration`.
- InternalDsql.AgreesWithStoragePreparer: assumes both preparers sign with one deterministic signer that depends only on the URI. In the code they import different connector packages, and real IAM tokens are time-limited, so two real calls give different passwords. `InternalDsql.AgreesUpToToken` states the agreement without that assumption.
- Occ.BaseBackoff: only attempts 0 to 4 are modelled. Go's `time.Duration(10<<attempt) * time.Millisecond` would overflow `int64` from attempt 40 on, but no such attempt occurs.
- Logging calls (`log.Info`) and `db.Close()` have no effect on the modelled state.
- Cancellation and deadlines are not modelled. `withOCCRetry` takes no context and cannot be cancelled.
- The retry policy is fixed in the code and in the model: 5 attempts, substring classification, and a sleep after every conflicting attempt, including the last.

=== FILE: effects.dfy ===
/** The collaborators the rewrite and the bootstrap call, as oracles, and the
    observable steps a run performs. */
module Effects {
  import opened Errors
  import opened Uri

  /** External code that the model does not look inside. */
  datatype Env = Env(
    /** `dsql.GenerateTokenConnString`: the IAM signer. */
    token: string -> Result<string>,
    /** `url.Parse`. */
    parse: string -> Result<Url>,
    /** `(*url.URL).String`. */
    format: Url -> string,
    /** `goose.OpenDBWithDriver("pgx", uri)`: nil when the connection opens. */
    open: Url -> Option<Error>)

  /** One externally visible action, in the order a run performs them. */
  datatype Step =
    | GenerateToken(target: string)
    | ParseUri(text: string)
    | OpenConnection(uri: Url)
    | CreateTable
    | CheckRows
    | InsertSentinel

  /** A value or an error, with the steps taken to produce it. */
  datatype Outcome<+T> = Outcome(result: Result<T>, trace: seq<Step>)
}

=== FILE: errors.dfy ===
/** Go-style error values and results, and the two `strings` helpers the
    DSQL glue code relies on: `strings.Contains` and `strings.TrimPrefix`. */
module Errors {

  /** A possibly-nil value; `Option<Error>` is a Go `error` that may be nil. */
  datatype Option<+T> = None | Some(value: T)

  /** A non-nil Go error. `Wrapped(context, cause)` is the error built by
      `fmt.Errorf("<context>: %w", cause)`. */
  datatype Error = Raw(text: string) | Wrapped(context: string, cause: Error)

  /** A value-or-error return pair `(T, error)` with exactly one side set. */
  datatype Result<+T> = Ok(value: T) | Err(error: Error)

  /** The text returned by `err.Error()`: `%w` prints the cause after the context. */
  function Message(e: Error): (m: string)
    ensures e.Raw? ==> m == e.text
    ensures e.Wrapped? ==> HasPrefix(m, e.context + ": ")
    ensures e.Wrapped? ==> |m| == |e.context| + 2 + |Message(e.cause)|
    ensures e.Wrapped? ==> m[|e.context| + 2..] == Message(e.cause)
  {
    match e
    case Raw(t) => t
    case Wrapped(c, cause) => c + ": " + Message(cause)
  }

  /** `sub` occurs in `s` starting at position `i`. */
  ghost predicate OccursAt(sub: string, s: string, i: int)
  {
    0 <= i <= |s| - |sub| && s[i..i + |sub|] == sub
  }

  /** `sub` occurs somewhere inside `s` as a contiguous run. */
  ghost predicate IsSubstring(sub: string, s: string)
  {
    exists i :: OccursAt(sub, s, i)
  }

  /** `strings.Contains(s, sub)`: a left-to-right scan, proved to agree with
      the positional definition above. */
  function Contains(s: string, sub: string): (r: bool)
    ensures r <==> IsSubstring(sub, s)
    decreases |s|
  {
    if |s| < |sub| then
      false
    else if s[..|sub|] == sub then
      assert OccursAt(sub, s, 0);
      true
    else
      var rest := Contains(s[1..], sub);
      assert rest ==> IsSubstring(sub, s) by {
        if rest {
          var i :| OccursAt(sub, s[1..], i);
          assert s[i + 1..i + 1 + |sub|] == s[1..][i..i + |sub|];
          assert OccursAt(sub, s, i + 1);
        }
      }
      assert IsSubstring(sub, s) ==> rest by {
        if IsSubstring(sub, s) {
          var i :| OccursAt(sub, s, i);
          assert i != 0;
          assert s[1..][i - 1..i - 1 + |sub|] == s[i..i + |sub|];
          assert OccursAt(sub, s[1..], i - 1);
        }
      }
      rest
  }

  /** Text that occurs in a string still occurs once anything is put in front of it. */
  lemma SubstringOfSuffix(sub: string, prefix: string, s: string)
    requires IsSubstring(sub, s)
    ensures IsSubstring(sub, prefix + s)
  {
    var i :| OccursAt(sub, s, i);
    var j := |prefix| + i;
    assert (prefix + s)[j..j + |sub|] == s[i..i + |sub|];
    assert OccursAt(sub, prefix + s, j);
  }

  /** `strings.HasPrefix(s, p)`. */
  predicate HasPrefix(s: string, p: string)
  {
    |p| <= |s| && s[..|p|] == p
  }

  /** `strings.TrimPrefix(s, p)`: strips one leading copy of `p` when present,
      otherwise returns `s` unchanged. */
  function TrimPrefix(s: string, p: string): (r: string)
    ensures HasPrefix(s, p) ==> p + r == s
    ensures !HasPrefix(s, p) ==> r == s
    ensures |r| <= |s|
  {
    if HasPrefix(s, p) then s[|p|..] else s
  }
}

=== FILE: internal.dfy ===
/** The shared DSQL helper `PreparePostgresURI(uri, username)`: like the
    storage package's preparer, but an explicit username takes precedence,
    is used to sign the token, and an empty name falls back to `admin`. */
module InternalDsql {
  import opened Errors
  import opened Uri
  import opened Effects
  import Postgres

  const OverrideContext: string := "parse URI for username override"

  /** Username precedence: the parameter if non-empty, else the URI's
      username if present and non-empty, else `admin`. */
  function FinalUsername(param: string, uriUser: Option<UserInfo>): (r: string)
    ensures r != ""
    ensures param != "" ==> r == param
    ensures param == "" && uriUser.Some? && uriUser.value.username != "" ==> r == uriUser.value.username
    ensures param == "" && (uriUser.None? || uriUser.value.username == "") ==> r == DefaultUsername
  {
    if param != "" then param
    else if uriUser.Some? && uriUser.value.username != "" then uriUser.value.username
    else DefaultUsername
  }

  /** `url.User(username)` on a parsed URL: the name replaces any userinfo,
      and no password is set. */
  function WithUsername(u: Url, username: string): (r: Url)
    ensures r.rest == u.rest && r.query == u.query
    ensures r.user == Some(UserInfo(username, None))
  {
    u.(user := Some(UserInfo(username, None)))
  }

  /** The URI the token is signed for. Without a username parameter it is the
      input itself; with one it is the input reparsed under the `postgres`
      scheme, given that username, printed and turned back to `dsql`. */
  function TokenTarget(uri: string, username: string, env: Env): (r: Outcome<string>)
    ensures username == "" ==> r == Outcome(Ok(uri), [])
    ensures username != "" ==> r.trace == [ParseUri(ToPostgresScheme(uri))]
    ensures username != "" && env.parse(ToPostgresScheme(uri)).Err? ==>
              r.result == Err(Wrapped(OverrideContext, env.parse(ToPostgresScheme(uri)).error))
    ensures username != "" && r.result.Ok? ==>
              && HasPrefix(r.result.value, DsqlScheme)
              && env.parse(ToPostgresScheme(uri)).Ok?
              && r.result.value == ToDsqlScheme(env.format(WithUsername(env.parse(ToPostgresScheme(uri)).value, username)))
  {
    if username == "" then
      Outcome(Ok(uri), [])
    else
      var pgUri := ToPostgresScheme(uri);
      match env.parse(pgUri)
      case Err(e) => Outcome(Err(Wrapped(OverrideContext, e)), [ParseUri(pgUri)])
      case Ok(parsed) => Outcome(Ok(ToDsqlScheme(env.format(WithUsername(parsed, username)))), [ParseUri(pgUri)])
  }

  /** When the printed override URL carries the `postgres` scheme (as a URL
      parsed from a `postgres...` string prints), the token target is exactly
      that URL with its scheme swapped back: swapping it forward again
      recovers the printed text. */
  lemma TokenTargetIsOverrideUrl(uri: string, username: string, env: Env)
    requires username != ""
    requires env.parse(ToPostgresScheme(uri)).Ok?
    requires HasPrefix(env.format(WithUsername(env.parse(ToPostgresScheme(uri)).value, username)), PostgresScheme)
    ensures TokenTarget(uri, username, env).result.Ok?
    ensures ToPostgresScheme(TokenTarget(uri, username, env).result.value)
              == env.format(WithUsername(env.parse(ToPostgresScheme(uri)).value, username))
  {
    PostgresRoundTrip(env.format(WithUsername(env.parse(ToPostgresScheme(uri)).value, username)));
  }

  /** `PreparePostgresURI(uri, username)`. The result is the URL before `String()`. */
  function PreparePostgresURI(uri: string, username: string, env: Env): (r: Outcome<Url>)
    // without a username parameter the token is signed for the input unchanged
    ensures username == "" ==> |r.trace| >= 1 && r.trace[0] == GenerateToken(uri)
    // with one, the override parse comes first and a failure there stops everything
    ensures username != "" ==> |r.trace| >= 1 && r.trace[0] == ParseUri(ToPostgresScheme(uri))
    ensures username != "" && env.parse(ToPostgresScheme(uri)).Err? ==>
              r == Outcome(Err(Wrapped(OverrideContext, env.parse(ToPostgresScheme(uri)).error)),
                           [ParseUri(ToPostgresScheme(uri))])
    // ... otherwise the token is signed for the overridden, dsql-prefixed URI
    ensures var target := TokenTarget(uri, username, env);
            username != "" && env.parse(ToPostgresScheme(uri)).Ok? ==>
              && |r.trace| >= 2
              && r.trace[1] == GenerateToken(target.result.value)
              && HasPrefix(target.result.value, DsqlScheme)
    // a signer failure returns its error and no URI, and nothing is parsed after it
    ensures var target := TokenTarget(uri, username, env);
            target.result.Ok? && env.token(target.result.value).Err? ==>
              && r.result == Err(Wrapped(TokenContext, env.token(target.result.value).error))
              && r.trace == target.trace + [GenerateToken(target.result.value)]
    // once signed, the text is parsed under the postgres scheme, and a parse
    // failure there is wrapped as for the storage preparer
    ensures var target := TokenTarget(uri, username, env);
            target.result.Ok? && env.token(target.result.value).Ok? ==>
              && r.trace == target.trace + [GenerateToken(target.result.value), ParseUri(ToPostgresScheme(uri))]
              && (env.parse(ToPostgresScheme(uri)).Err? ==>
                    r.result == Err(Wrapped(ParseContext, env.parse(ToPostgresScheme(uri)).error)))
    // success: the parsed URL with the chosen username and the token as
    // password, sslmode=require, no region, every other part unchanged
    ensures var target := TokenTarget(uri, username, env);
            r.result.Ok? ==>
              && target.result.Ok?
              && env.token(target.result.value).Ok?
              && env.parse(ToPostgresScheme(uri)).Ok?
              && var parsed := env.parse(ToPostgresScheme(uri)).value;
              && var token := env.token(target.result.value).value;
              && r.result.value.rest == parsed.rest
              && r.result.value.user == Some(UserInfo(FinalUsername(username, parsed.user), Some(token)))
              && QueryRewritten(parsed.query, r.result.value.query)
    ensures var target := TokenTarget(uri, username, env);
            r.result.Ok? <==>
              && target.result.Ok?
              && env.token(target.result.value).Ok?
              && env.parse(ToPostgresScheme(uri)).Ok?
  {
    var target := TokenTarget(uri, username, env);
    match target.result
    case Err(e) => Outcome(Err(e), target.trace)
    case Ok(tokenUri) =>
      var signed := target.trace + [GenerateToken(tokenUri)];
      match env.token(tokenUri)
      case Err(e) => Outcome(Err(Wrapped(TokenContext, e)), signed)
      case Ok(token) =>
        var pgUri := ToPostgresScheme(uri);
        match env.parse(pgUri)
        case Err(e) => Outcome(Err(Wrapped(ParseContext, e)), signed + [ParseUri(pgUri)])
        case Ok(parsed) =>
          Outcome(Ok(Authenticate(parsed, FinalUsername(username, parsed.user), token)), signed + [ParseUri(pgUri)])
  }

  /** With a username parameter the same text is parsed twice, so the second
      parse cannot fail once the first succeeded: the "parse database URI"
      error is only reachable without a username parameter. */
  lemma SecondParseFailsOnlyWithoutOverride(uri: string, username: string, env: Env)
    requires PreparePostgresURI(uri, username, env).result.Err?
    requires PreparePostgresURI(uri, username, env).result.error.Wrapped?
    requires PreparePostgresURI(uri, username, env).result.error.context == ParseContext
    ensures username == ""
  {
  }

  /** Without a username parameter the two preparers agree, except when the
      URI's userinfo is present with an empty name. */
  lemma AgreesWithStoragePreparer(uri: string, env: Env)
    requires env.parse(ToPostgresScheme(uri)).Ok? ==>
               var user := env.parse(ToPostgresScheme(uri)).value.user;
               user.None? || user.value.username != ""
    ensures PreparePostgresURI(uri, "", env).result == Postgres.PrepareDSQLURI(uri, env).result
  {
  }

  /** The two preparers come from different connector packages, each with
      its own IAM signer, and tokens are time-limited. With separate signers
      (`env` for this package, `storageToken` for the storage package's) and
      no username parameter, both succeed or fail together when both signers
      succeed, and then agree on everything but the password: the same
      untouched parts, the same query, the same username (barring an empty
      URI username); each password is its own signer's token. */
  lemma AgreesUpToToken(uri: string, env: Env, storageToken: string -> Result<string>)
    requires env.token(uri).Ok? && storageToken(uri).Ok?
    requires env.parse(ToPostgresScheme(uri)).Ok? ==>
               var user := env.parse(ToPostgresScheme(uri)).value.user;
               user.None? || user.value.username != ""
    ensures var mine := PreparePostgresURI(uri, "", env).result;
            var theirs := Postgres.PrepareDSQLURI(uri, env.(token := storageToken)).result;
            && (mine.Ok? <==> theirs.Ok?)
            && (mine.Ok? ==>
                  && mine.value.rest == theirs.value.rest
                  && mine.value.query == theirs.value.query
                  && mine.value.user.value.username == theirs.value.user.value.username
                  && mine.value.user.value.password == Some(env.token(uri).value)
                  && theirs.value.user.value.password == Some(storageToken(uri).value))
  {
  }

  /** In the case the two lemmas above exclude, a URI whose userinfo has an
      empty name, the preparers differ: the storage preparer keeps the empty
      name while this one falls back to `admin`. */
  lemma EmptyUriUsernameDiverges(uri: string, env: Env)
    requires env.token(uri).Ok? && env.parse(ToPostgresScheme(uri)).Ok?
    requires var user := env.parse(ToPostgresScheme(uri)).value.user;
             user.Some? && user.value.username == ""
    ensures Postgres.PrepareDSQLURI(uri, env).result.value.user.value.username == ""
    ensures PreparePostgresURI(uri, "", env).result.value.user.value.username == DefaultUsername
  {
  }
}

=== FILE: ledger.dfy ===
/** The goose version ledger (`goose_db_version`) and `EnsureGooseTable`, the
    three-step bootstrap that makes sure the table exists and holds goose's
    initial version-0 row. The database is abstract: the table's presence and
    rows, plus a per-step failure oracle. */
module Ledger {
  import opened Errors
  import opened Effects

  /** A ledger row, reduced to what goose reads. The `id` and `tstamp`
      columns are filled by the server from its clock and are not modelled. */
  datatype VersionRow = VersionRow(versionId: int, isApplied: bool)

  /** The row goose expects before any migration: version 0, applied. */
  const Sentinel: VersionRow := VersionRow(0, true)

  /** The database as the bootstrap sees it: `None` when `goose_db_version`
      does not exist, otherwise its rows. */
  datatype Db = Db(table: Option<seq<VersionRow>>)

  /** For each statement, the error it fails with, or `None` if it succeeds.
      A failed statement has no effect on the database. */
  datatype Faults = Faults(create: Option<Error>, check: Option<Error>, insert: Option<Error>)

  const NoFaults: Faults := Faults(None, None, None)

  const CreateContext: string := "create goose table"
  const CheckContext: string := "check goose table"
  const InsertContext: string := "insert initial goose row"

  /** A bootstrap run: the database afterwards, the returned error, the steps issued. */
  datatype Run = Run(db: Db, err: Option<Error>, trace: seq<Step>)

  /** The rows of the ledger; a missing table reads as no rows. */
  function Rows(db: Db): seq<VersionRow>
  {
    match db.table
    case Some(rows) => rows
    case None => []
  }

  /** The state goose can start from: the table exists and is non-empty. */
  predicate Ready(db: Db)
  {
    db.table.Some? && |db.table.value| > 0
  }

  /** `EnsureGooseTable(db)`: `CREATE TABLE IF NOT EXISTS`, then
      `SELECT EXISTS (SELECT 1 FROM goose_db_version)`, then, only when the
      table is empty, the insert of the sentinel row. Each step's error is
      returned wrapped in that step's context, and the later steps are not
      issued. */
  function EnsureGooseTable(db: Db, faults: Faults): (r: Run)
    // success leaves a ledger goose can use; failures never add rows
    ensures r.err.None? ==> Ready(r.db)
    ensures r.err.Some? ==> Rows(r.db) == Rows(db)
    // existing rows are never removed or changed
    ensures Rows(db) <= Rows(r.db)
    // an empty or missing ledger is seeded with exactly the sentinel
    ensures r.err.None? && Rows(db) == [] ==> r.db.table == Some([Sentinel])
    // a non-empty ledger is left exactly as it was
    ensures Ready(db) ==> r.db == db && InsertSentinel !in r.trace
    // the table-creation failure path: nothing else is attempted, nothing changes
    ensures faults.create.Some? ==>
              r == Run(db, Some(Wrapped(CreateContext, faults.create.value)), [CreateTable])
    // the existence-check failure path: no insert
    ensures faults.create.None? && faults.check.Some? ==>
              && r.err == Some(Wrapped(CheckContext, faults.check.value))
              && r.trace == [CreateTable, CheckRows]
    // the insert failure path: only when the ledger was empty
    ensures r.err.Some? && faults.create.None? && faults.check.None? ==>
              && Rows(db) == []
              && faults.insert.Some?
              && r.err == Some(Wrapped(InsertContext, faults.insert.value))
              && r.trace == [CreateTable, CheckRows, InsertSentinel]
    // an insert fault on an empty ledger is returned, and nothing is inserted
    ensures faults.create.None? && faults.check.None? && Rows(db) == [] && faults.insert.Some? ==>
              r == Run(Db(Some([])), Some(Wrapped(InsertContext, faults.insert.value)),
                       [CreateTable, CheckRows, InsertSentinel])
    // a fault-free run on an empty or missing ledger issues the insert and succeeds
    ensures faults.create.None? && faults.check.None? && faults.insert.None? && Rows(db) == [] ==>
              r.err.None? && r.trace == [CreateTable, CheckRows, InsertSentinel]
    // a non-empty ledger is checked, succeeds, and gets no insert
    ensures faults.create.None? && faults.check.None? && Ready(db) ==>
              r.err.None? && r.trace == [CreateTable, CheckRows]
    // once the create step succeeds, the table exists
    ensures faults.create.None? ==> r.db.table.Some?
  {
    if faults.create.Some? then
      Run(db, Some(Wrapped(CreateContext, faults.create.value)), [CreateTable])
    else
      var created := Db(Some(Rows(db)));
      if faults.check.Some? then
        Run(created, Some(Wrapped(CheckContext, faults.check.value)), [CreateTable, CheckRows])
      else if |Rows(created)| > 0 then
        Run(created, None, [CreateTable, CheckRows])
      else if faults.insert.Some? then
        Run(created, Some(Wrapped(InsertContext, faults.insert.value)), [CreateTable, CheckRows, InsertSentinel])
      else
        Run(Db(Some([Sentinel])), None, [CreateTable, CheckRows, InsertSentinel])
  }

  /** After one successful run, any later run (whatever its faults) leaves the
      ledger unchanged; a later run without faults also succeeds. So running
      the bootstrap twice in sequence gives the ledger of running it once. */
  lemma SecondRunIsNoOp(db: Db, first: Faults, second: Faults)
    requires EnsureGooseTable(db, first).err.None?
    ensures EnsureGooseTable(EnsureGooseTable(db, first).db, second).db == EnsureGooseTable(db, first).db
    ensures second.create.None? && second.check.None? ==>
              EnsureGooseTable(EnsureGooseTable(db, first).db, second).err.None?
  {
  }

  /** Running twice without faults equals running once. */
  lemma EnsureTwiceIsOnce(db: Db)
    ensures EnsureGooseTable(EnsureGooseTable(db, NoFaults).db, NoFaults).db == EnsureGooseTable(db, NoFaults).db
    ensures EnsureGooseTable(EnsureGooseTable(db, NoFaults).db, NoFaults).err.None?
  {
    SecondRunIsNoOp(db, NoFaults, NoFaults);
  }

  /** An aborted run leaves nothing behind that changes the outcome of a
      fault-free retry: retrying ends in the ledger a single clean run gives. */
  lemma FailedRunIsHarmless(db: Db, faults: Faults)
    requires EnsureGooseTable(db, faults).err.Some?
    ensures EnsureGooseTable(EnsureGooseTable(db, faults).db, NoFaults).db == EnsureGooseTable(db, NoFaults).db
  {
  }
}

=== FILE: migrate.dfy ===
/** DSQL preparation for the migration command: rewrite the connection
    string, bootstrap the goose ledger over a fresh connection, and hand goose
    a configuration only once the ledger is ready. */
module Migrate {
  import opened Errors
  import opened Uri
  import opened Effects
  import opened Ledger
  import Postgres

  const OpenContext: string := "open connection"
  const BootstrapContext: string := "create goose version table"

  /** goose's driver name for the pgx stdlib driver. */
  const PgxDriver: string := "pgx"

  /** `dsqlMigrationConfig`. */
  datatype MigrationConfig = MigrationConfig(driver: string, migrationsPath: string, uri: Url)

  /** A preparation run: the configuration or error, the database afterwards,
      and the steps issued. */
  datatype MigrationRun = MigrationRun(config: Result<MigrationConfig>, db: Db, trace: seq<Step>)

  /** `ensureGooseTableForDSQL(uri)`: open a connection to `uri`, then the
      same three ledger steps, with the same error contexts, as
      `EnsureGooseTable`. */
  function EnsureGooseTableForDSQL(uri: Url, env: Env, db: Db, faults: Faults): (r: Run)
    ensures |r.trace| >= 1 && r.trace[0] == OpenConnection(uri)
    // an unopened connection touches no table
    ensures env.open(uri).Some? ==>
              r == Run(db, Some(Wrapped(OpenContext, env.open(uri).value)), [OpenConnection(uri)])
    // once open, the ledger behaves exactly as under EnsureGooseTable
    ensures env.open(uri).None? ==>
              && r.db == EnsureGooseTable(db, faults).db
              && r.err == EnsureGooseTable(db, faults).err
              && r.trace[1..] == EnsureGooseTable(db, faults).trace
    // the ledger properties, restated for this entry point
    ensures r.err.None? ==> Ready(r.db)
    ensures Rows(db) <= Rows(r.db)
    ensures Ready(db) ==> r.db == db && InsertSentinel !in r.trace
    ensures r.err.None? && Rows(db) == [] ==> r.db.table == Some([Sentinel])
  {
    match env.open(uri)
    case Some(e) => Run(db, Some(Wrapped(OpenContext, e)), [OpenConnection(uri)])
    case None =>
      var run := EnsureGooseTable(db, faults);
      Run(run.db, run.err, [OpenConnection(uri)] + run.trace)
  }

  /** `prepareDSQLMigration(uri)`. Its first half is the same rewrite as the
      storage package's `PrepareDSQLURI`, with the same error contexts.
      `migrationsDir` stands for `assets.DSQLMigrationDir`. */
  function PrepareDSQLMigration(uri: string, env: Env, migrationsDir: string, db: Db, faults: Faults): (r: MigrationRun)
    // a signer failure aborts before any rewrite or bootstrap
    ensures env.token(uri).Err? ==>
              r == MigrationRun(Err(Wrapped(TokenContext, env.token(uri).error)), db, [GenerateToken(uri)])
    // the rewritten text is the input with its dsql prefix replaced by postgres
    ensures env.token(uri).Ok? ==>
              |r.trace| >= 2 && r.trace[1] == ParseUri(ToPostgresScheme(uri))
    // a bootstrap failure is wrapped and no configuration is returned
    ensures env.token(uri).Ok? && env.parse(ToPostgresScheme(uri)).Ok? ==>
              var finalUri := Postgres.PrepareDSQLURI(uri, env).result.value;
              var boot := EnsureGooseTableForDSQL(finalUri, env, db, faults);
              && r.db == boot.db
              && (boot.err.Some? ==> r.config == Err(Wrapped(BootstrapContext, boot.err.value)))
    // success: pgx, the DSQL migrations, and the rewritten URI, which is the
    // very URI the bootstrap connected to; and the ledger is ready
    ensures r.config.Ok? ==>
              && env.token(uri).Ok?
              && env.parse(ToPostgresScheme(uri)).Ok?
              && var parsed := env.parse(ToPostgresScheme(uri)).value;
              && r.config.value.driver == PgxDriver
              && r.config.value.migrationsPath == migrationsDir
              && OpenConnection(r.config.value.uri) in r.trace
              && r.config.value.uri.rest == parsed.rest
              && r.config.value.uri.user == Some(UserInfo(UriUserOrDefault(parsed.user), Some(env.token(uri).value)))
              && QueryRewritten(parsed.query, r.config.value.uri.query)
              && Ready(r.db)
    // after a successful rewrite, the steps are the rewrite's, then the bootstrap's
    ensures env.token(uri).Ok? && env.parse(ToPostgresScheme(uri)).Ok? ==>
              var prepared := Postgres.PrepareDSQLURI(uri, env);
              r.trace == prepared.trace + EnsureGooseTableForDSQL(prepared.result.value, env, db, faults).trace
    // a parse failure is wrapped, and nothing is opened or written
    ensures env.token(uri).Ok? && env.parse(ToPostgresScheme(uri)).Err? ==>
              && r.config == Err(Wrapped(ParseContext, env.parse(ToPostgresScheme(uri)).error))
              && r.db == db
              && r.trace == [GenerateToken(uri), ParseUri(ToPostgresScheme(uri))]
    // a configuration is returned exactly when the signer, the parse and the bootstrap all succeed
    ensures r.config.Ok? <==>
              && env.token(uri).Ok?
              && env.parse(ToPostgresScheme(uri)).Ok?
              && EnsureGooseTableForDSQL(Postgres.PrepareDSQLURI(uri, env).result.value, env, db, faults).err.None?
    // nothing is opened or written unless the rewrite succeeded
    ensures !(env.token(uri).Ok? && env.parse(ToPostgresScheme(uri)).Ok?) ==> r.db == db && r.config.Err?
  {
    var prepared := Postgres.PrepareDSQLURI(uri, env);
    match prepared.result
    case Err(e) => MigrationRun(Err(e), db, prepared.trace)
    case Ok(finalUri) =>
      var boot := EnsureGooseTableForDSQL(finalUri, env, db, faults);
      var trace := prepared.trace + boot.trace;
      match boot.err
      case Some(e) => MigrationRun(Err(Wrapped(BootstrapContext, e)), boot.db, trace)
      case None => MigrationRun(Ok(MigrationConfig(PgxDriver, migrationsDir, finalUri)), boot.db, trace)
  }

  /** Running the migration preparation twice in a row leaves the ledger as
      the first successful run left it. */
  lemma PrepareTwiceKeepsLedger(uri: string, env: Env, migrationsDir: string, db: Db, first: Faults, second: Faults)
    requires PrepareDSQLMigration(uri, env, migrationsDir, db, first).config.Ok?
    ensures var once := PrepareDSQLMigration(uri, env, migrationsDir, db, first).db;
            PrepareDSQLMigration(uri, env, migrationsDir, once, second).db == once
  {
    SecondRunIsNoOp(db, first, second);
  }
}

=== FILE: occ.dfy ===
/** Optimistic-concurrency-control handling for Aurora DSQL: the substring
    classifier `isOCCError` and the bounded retry loop `withOCCRetry`. */
module Occ {
  import opened Errors

  /** DSQL mutation conflict. */
  const MutationConflict: string := "OC000"
  /** DSQL schema conflict. */
  const SchemaConflict: string := "OC001"
  /** PostgreSQL `serialization_failure`. */
  const SerializationFailure: string := "40001"

  /** Context of the error returned once every attempt has conflicted. */
  const RetryLimitExceeded: string := "OCC retry limit exceeded"

  /** Number of times `withOCCRetry` calls its operation at most. */
  const MaxRetries: nat := 5

  /** `time.Millisecond`; every duration here is in nanoseconds. */
  const Millisecond: nat := 1_000_000

  /** The conflict signatures, stated over the error text positionally. */
  ghost predicate SignalsConflict(msg: string)
  {
    IsSubstring(MutationConflict, msg)
    || IsSubstring(SchemaConflict, msg)
    || IsSubstring(SerializationFailure, msg)
  }

  /** `isOCCError`: nil is never a conflict; a non-nil error is one exactly
      when its text carries one of the three signatures. */
  function IsOCCError(err: Option<Error>): (b: bool)
    ensures err.None? ==> !b
    ensures err.Some? ==> (b <==> SignalsConflict(Message(err.value)))
  {
    match err
    case None => false
    case Some(e) =>
      var msg := Message(e);
      Contains(msg, MutationConflict) || Contains(msg, SchemaConflict) || Contains(msg, SerializationFailure)
  }

  /** Wrapping with `%w` keeps the cause's text, so a wrapped conflict is
      still classified as a conflict, whatever context is added. */
  lemma WrappedConflictIsConflict(context: string, e: Error)
    requires IsOCCError(Some(e))
    ensures IsOCCError(Some(Wrapped(context, e)))
  {
    var msg := Message(e);
    assert Message(Wrapped(context, e)) == (context + ": ") + msg;
    if IsSubstring(MutationConflict, msg) {
      SubstringOfSuffix(MutationConflict, context + ": ", msg);
    } else if IsSubstring(SchemaConflict, msg) {
      SubstringOfSuffix(SchemaConflict, context + ": ", msg);
    } else {
      SubstringOfSuffix(SerializationFailure, context + ": ", msg);
    }
  }

  /** The terminal "retry limit exceeded" error wraps a conflict, so it is
      itself classified as a conflict by `isOCCError`: an enclosing
      `withOCCRetry` would retry it again. */
  lemma ExhaustionErrorIsConflict(last: Error)
    requires IsOCCError(Some(last))
    ensures IsOCCError(Some(Wrapped(RetryLimitExceeded, last)))
  {
    WrappedConflictIsConflict(RetryLimitExceeded, last);
  }

  function Pow2(n: nat): (r: nat)
    ensures r >= 1
  {
    if n == 0 then 1 else 2 * Pow2(n - 1)
  }

  /** `time.Duration(10<<attempt) * time.Millisecond`: no overflow is possible
      since `attempt < MaxRetries`. */
  function BaseBackoff(attempt: nat): (d: nat)
    requires attempt < MaxRetries
    ensures d >= 10 * Millisecond
  {
    10 * Pow2(attempt) * Millisecond
  }

  /** A sleep taken after attempt `attempt`: the base plus a jitter drawn by
      `rand.Int63n(base/2)`, that is in `[0, base/2)`. */
  ghost predicate SleepWithin(d: int, attempt: nat)
  {
    && attempt < MaxRetries
    && BaseBackoff(attempt) <= d < BaseBackoff(attempt) + BaseBackoff(attempt) / 2
  }

  /** Each base is twice the previous one. */
  lemma BackoffDoubles(attempt: nat)
    requires attempt + 1 < MaxRetries
    ensures BaseBackoff(attempt + 1) == 2 * BaseBackoff(attempt)
  {
  }

  /** Bases strictly increase with the attempt index, and the sleep ranges are
      disjoint and ordered: every possible sleep after attempt `i`, which lies
      below `base(i) + base(i)/2`, is shorter than every possible sleep after
      a later one, which is at least `base(j)`. */
  lemma {:induction false} BackoffIncreasing(i: nat, j: nat)
    requires i < j < MaxRetries
    ensures BaseBackoff(i) < BaseBackoff(j)
    ensures BaseBackoff(i) + BaseBackoff(i) / 2 <= BaseBackoff(j)
  {
    BackoffDoubles(j - 1);
    if i < j - 1 {
      BackoffIncreasing(i, j - 1);
    }
  }

  /** `withOCCRetry(fn)`. The operation is an oracle: `fn(k)` is what the
      `k`-th call (from 0) returns. `calls` is how many times `fn` ran and
      `sleeps` lists, in order, the durations passed to `time.Sleep`. */
  method WithOCCRetry(fn: nat -> Option<Error>) returns (result: Option<Error>, calls: nat, sleeps: seq<int>)
    ensures 1 <= calls <= MaxRetries
    ensures forall k :: 0 <= k < calls - 1 ==> IsOCCError(fn(k))
    ensures !IsOCCError(fn(calls - 1)) ==> result == fn(calls - 1) && |sleeps| == calls - 1
    ensures IsOCCError(fn(calls - 1)) ==>
              && calls == MaxRetries
              && |sleeps| == MaxRetries
              && result == Some(Wrapped(RetryLimitExceeded, fn(calls - 1).value))
    ensures forall k :: 0 <= k < |sleeps| ==> SleepWithin(sleeps[k], k)
  {
    var err: Option<Error> := None;
    var attempt: nat := 0;
    calls := 0;
    sleeps := [];
    while attempt < MaxRetries
      invariant attempt <= MaxRetries
      invariant calls == attempt && |sleeps| == attempt
      invariant forall k :: 0 <= k < attempt ==> IsOCCError(fn(k))
      invariant attempt > 0 ==> err == fn(attempt - 1)
      invariant forall k :: 0 <= k < |sleeps| ==> SleepWithin(sleeps[k], k)
    {
      err := fn(attempt);
      calls := calls + 1;
      if !IsOCCError(err) {
        result := err;
        return;
      }
      var base := BaseBackoff(attempt);
      var jitter :| 0 <= jitter < base / 2;
      sleeps := sleeps + [base + jitter];
      attempt := attempt + 1;
    }
    result := Some(Wrapped(RetryLimitExceeded, err.value));
  }

  /** Total time slept, in nanoseconds. */
  function TotalSleep(sleeps: seq<int>): int
  {
    if |sleeps| == 0 then 0 else TotalSleep(sleeps[..|sleeps| - 1]) + sleeps[|sleeps| - 1]
  }

  /** After `n` sleeps the loop has waited at least `10·(2^n − 1)` ms and, if
      it slept at all, less than `15·(2^n − 1)` ms: 310 ms to 465 ms when all
      five attempts conflict. */
  lemma {:induction false} TotalSleepBounds(sleeps: seq<int>)
    requires |sleeps| <= MaxRetries
    requires forall k :: 0 <= k < |sleeps| ==> SleepWithin(sleeps[k], k)
    ensures 10 * Millisecond * (Pow2(|sleeps|) - 1) <= TotalSleep(sleeps)
    ensures |sleeps| > 0 ==> TotalSleep(sleeps) < 15 * Millisecond * (Pow2(|sleeps|) - 1)
  {
    if |sleeps| > 0 {
      var n := |sleeps| - 1;
      var init := sleeps[..n];
      assert forall k :: 0 <= k < |init| ==> init[k] == sleeps[k];
      TotalSleepBounds(init);
      assert SleepWithin(sleeps[n], n);
      assert Pow2(n + 1) == 2 * Pow2(n);
    }
  }
}

=== FILE: postgres.dfy ===
/** The connection helpers of the Postgres storage package: `PrepareDSQLURI`
    and the pool-setting override applied by `initDSQLDB`. */
module Postgres {
  import opened Errors
  import opened Uri
  import opened Effects

  /** `PrepareDSQLURI(uri)`: fetch an IAM token for `uri`, swap the scheme to
      `postgres`, parse, set the credentials to (URI username or `admin`,
      token) and rewrite the query. The result is the URL before `String()`. */
  function PrepareDSQLURI(uri: string, env: Env): (r: Outcome<Url>)
    // the token is requested first, for the URI exactly as given
    ensures |r.trace| >= 1 && r.trace[0] == GenerateToken(uri)
    // a signer failure aborts before any rewrite
    ensures env.token(uri).Err? ==>
              r == Outcome(Err(Wrapped(TokenContext, env.token(uri).error)), [GenerateToken(uri)])
    // otherwise the rewritten text is parsed, and a parse failure is reported
    ensures env.token(uri).Ok? ==> r.trace == [GenerateToken(uri), ParseUri(ToPostgresScheme(uri))]
    ensures env.token(uri).Ok? && env.parse(ToPostgresScheme(uri)).Err? ==>
              r.result == Err(Wrapped(ParseContext, env.parse(ToPostgresScheme(uri)).error))
    // success: the parsed URL with the token as password, the URI's username
    // (or admin), sslmode=require, no region, every other part unchanged
    ensures r.result.Ok? ==>
              && env.token(uri).Ok?
              && env.parse(ToPostgresScheme(uri)).Ok?
              && var parsed := env.parse(ToPostgresScheme(uri)).value;
              && r.result.value.rest == parsed.rest
              && r.result.value.user == Some(UserInfo(UriUserOrDefault(parsed.user), Some(env.token(uri).value)))
              && QueryRewritten(parsed.query, r.result.value.query)
    ensures r.result.Ok? <==> env.token(uri).Ok? && env.parse(ToPostgresScheme(uri)).Ok?
  {
    match env.token(uri)
    case Err(e) => Outcome(Err(Wrapped(TokenContext, e)), [GenerateToken(uri)])
    case Ok(token) =>
      var pgUri := ToPostgresScheme(uri);
      var trace := [GenerateToken(uri), ParseUri(pgUri)];
      match env.parse(pgUri)
      case Err(e) => Outcome(Err(Wrapped(ParseContext, e)), trace)
      case Ok(parsed) => Outcome(Ok(Authenticate(parsed, UriUserOrDefault(parsed.user), token)), trace)
  }

  /** The parts of `pgxpool.Config` that OpenFGA overrides. Connection counts
      are `int32`; durations are `time.Duration` (nanoseconds). */
  datatype PoolSettings = PoolSettings(maxConns: int, minConns: int, maxConnLifetime: int, maxConnIdleTime: int)

  /** The pool fields of `sqlcommon.Config`; connection counts are Go `int`. */
  datatype StorageConfig = StorageConfig(maxOpenConns: int, minOpenConns: int, connMaxLifetime: int, connMaxIdleTime: int)

  const TwoTo31: int := 0x8000_0000
  const TwoTo32: int := 0x1_0000_0000

  /** Go's `int32(x)`: keeps the low 32 bits, read as two's complement. */
  function Int32(x: int): (r: int)
    ensures -TwoTo31 <= r < TwoTo31
    ensures (x - r) % TwoTo32 == 0
  {
    (x + TwoTo31) % TwoTo32 - TwoTo31
  }

  /** Values that fit in 32 bits pass through the conversion unchanged. */
  lemma Int32InRange(x: int)
    requires -TwoTo31 <= x < TwoTo31
    ensures Int32(x) == x
  {
  }

  /** The override block of `initDSQLDB`: each nonzero config field replaces
      the connector's parsed value, and each zero field leaves it alone. */
  function ApplyPoolSettings(parsed: PoolSettings, cfg: StorageConfig): (r: PoolSettings)
    ensures r.maxConns == (if cfg.maxOpenConns != 0 then Int32(cfg.maxOpenConns) else parsed.maxConns)
    ensures r.minConns == (if cfg.minOpenConns != 0 then Int32(cfg.minOpenConns) else parsed.minConns)
    ensures r.maxConnLifetime == (if cfg.connMaxLifetime != 0 then cfg.connMaxLifetime else parsed.maxConnLifetime)
    ensures r.maxConnIdleTime == (if cfg.connMaxIdleTime != 0 then cfg.connMaxIdleTime else parsed.maxConnIdleTime)
  {
    var a := if cfg.maxOpenConns != 0 then parsed.(maxConns := Int32(cfg.maxOpenConns)) else parsed;
    var b := if cfg.minOpenConns != 0 then a.(minConns := Int32(cfg.minOpenConns)) else a;
    var c := if cfg.connMaxLifetime != 0 then b.(maxConnLifetime := cfg.connMaxLifetime) else b;
    if cfg.connMaxIdleTime != 0 then c.(maxConnIdleTime := cfg.connMaxIdleTime) else c
  }

  /** The `int32` conversion wraps: a nonzero `MaxOpenConns` of 2^32 still
      overrides, and sets `MaxConns` to 0. */
  lemma WrappedOverrideCanBeZero(parsed: PoolSettings)
    ensures ApplyPoolSettings(parsed, StorageConfig(TwoTo32, 0, 0, 0)).maxConns == 0
  {
  }

  /** An all-zero config keeps every connector default. */
  lemma ZeroConfigKeepsDefaults(parsed: PoolSettings)
    ensures ApplyPoolSettings(parsed, StorageConfig(0, 0, 0, 0)) == parsed
  {
  }

  /** A config whose counts fit in `int32` and whose fields are all nonzero
      determines the pool settings regardless of the connector's defaults. */
  lemma FullConfigWins(parsed: PoolSettings, cfg: StorageConfig)
    requires cfg.maxOpenConns != 0 && cfg.minOpenConns != 0 && cfg.connMaxLifetime != 0 && cfg.connMaxIdleTime != 0
    requires -TwoTo31 <= cfg.maxOpenConns < TwoTo31 && -TwoTo31 <= cfg.minOpenConns < TwoTo31
    ensures ApplyPoolSettings(parsed, cfg)
              == PoolSettings(cfg.maxOpenConns, cfg.minOpenConns, cfg.connMaxLifetime, cfg.connMaxIdleTime)
  {
    Int32InRange(cfg.maxOpenConns);
    Int32InRange(cfg.minOpenConns);
  }

  /** Applying the same config twice is the same as applying it once. */
  lemma ApplyPoolSettingsIdempotent(parsed: PoolSettings, cfg: StorageConfig)
    ensures ApplyPoolSettings(ApplyPoolSettings(parsed, cfg), cfg) == ApplyPoolSettings(parsed, cfg)
  {
  }

  const ParseDsqlContext: string := "parse DSQL URI"
  const PoolContext: string := "create DSQL pool"

  /** `initDSQLDB(uri, cfg)` with the connector's `ParseConnectionString` and
      `NewPool` as oracles. On success the result is the settings the pool was
      created with. */
  function InitDSQLDB(uri: string, cfg: StorageConfig,
                      parseConnection: string -> Result<PoolSettings>,
                      newPool: PoolSettings -> Option<Error>): (r: Result<PoolSettings>)
    ensures parseConnection(uri).Err? ==> r == Err(Wrapped(ParseDsqlContext, parseConnection(uri).error))
    ensures parseConnection(uri).Ok? ==>
              var settings := ApplyPoolSettings(parseConnection(uri).value, cfg);
              && (newPool(settings).Some? ==> r == Err(Wrapped(PoolContext, newPool(settings).value)))
              && (newPool(settings).None? ==> r == Ok(settings))
  {
    match parseConnection(uri)
    case Err(e) => Err(Wrapped(ParseDsqlContext, e))
    case Ok(parsed) =>
      var settings := ApplyPoolSettings(parsed, cfg);
      match newPool(settings)
      case Some(e) => Err(Wrapped(PoolContext, e))
      case None => Ok(settings)
  }
}

=== FILE: uri.dfy ===
/** Connection-string rewriting from the `dsql://` scheme to `postgres://`.
    A parsed URL is reduced to the parts the rewrite touches: the userinfo
    (section 3.2.1 of RFC 3986) and the query (section 3.4 of RFC 3986), held
    as the `url.Values` map. Everything else (scheme, host, port, path,
    fragment) is kept opaque in `rest`. */
module Uri {
  import opened Errors

  /** `url.Userinfo`: a username and an optional password. */
  datatype UserInfo = UserInfo(username: string, password: Option<string>)

  /** A parsed `url.URL`. */
  datatype Url = Url(rest: string, user: Option<UserInfo>, query: map<string, seq<string>>)

  const DsqlScheme: string := "dsql"
  const PostgresScheme: string := "postgres"

  /** The username used when none is given. */
  const DefaultUsername: string := "admin"

  /** Error contexts shared by every preparer. */
  const TokenContext: string := "generate DSQL auth token"
  const ParseContext: string := "parse database URI"

  const SslMode: string := "sslmode"
  const Require: string := "require"
  const Region: string := "region"

  /** `"postgres" + strings.TrimPrefix(uri, "dsql")`. */
  function ToPostgresScheme(uri: string): (r: string)
    ensures HasPrefix(r, PostgresScheme)
    ensures HasPrefix(uri, DsqlScheme) ==> r == PostgresScheme + uri[|DsqlScheme|..]
    ensures !HasPrefix(uri, DsqlScheme) ==> r == PostgresScheme + uri
  {
    PostgresScheme + TrimPrefix(uri, DsqlScheme)
  }

  /** `"dsql" + strings.TrimPrefix(s, "postgres")`, the way back. */
  function ToDsqlScheme(s: string): (r: string)
    ensures HasPrefix(r, DsqlScheme)
    ensures HasPrefix(s, PostgresScheme) ==> r == DsqlScheme + s[|PostgresScheme|..]
    ensures !HasPrefix(s, PostgresScheme) ==> r == DsqlScheme + s
  {
    DsqlScheme + TrimPrefix(s, PostgresScheme)
  }

  /** The two scheme swaps undo each other on `dsql`-prefixed input. */
  lemma DsqlRoundTrip(uri: string)
    requires HasPrefix(uri, DsqlScheme)
    ensures ToDsqlScheme(ToPostgresScheme(uri)) == uri
  {
    var tail := uri[|DsqlScheme|..];
    assert ToPostgresScheme(uri) == PostgresScheme + tail;
    assert (PostgresScheme + tail)[..|PostgresScheme|] == PostgresScheme;
    assert (PostgresScheme + tail)[|PostgresScheme|..] == tail;
    assert uri == DsqlScheme + tail;
  }

  /** ... and on `postgres`-prefixed input in the other order. */
  lemma PostgresRoundTrip(s: string)
    requires HasPrefix(s, PostgresScheme)
    ensures ToPostgresScheme(ToDsqlScheme(s)) == s
  {
    var tail := s[|PostgresScheme|..];
    assert ToDsqlScheme(s) == DsqlScheme + tail;
    assert (DsqlScheme + tail)[..|DsqlScheme|] == DsqlScheme;
    assert (DsqlScheme + tail)[|DsqlScheme|..] == tail;
    assert s == PostgresScheme + tail;
  }

  /** What the query must look like after the rewrite: `sslmode` is exactly
      `require`, `region` is gone, every other key keeps its values and no
      other key appears. */
  ghost predicate QueryRewritten(before: map<string, seq<string>>, after: map<string, seq<string>>)
  {
    && SslMode in after && after[SslMode] == [Require]
    && Region !in after
    && (forall k :: k in before && k != SslMode && k != Region ==> k in after && after[k] == before[k])
    && (forall k :: k in after ==> k == SslMode || k in before)
  }

  /** `q.Set("sslmode", "require"); q.Del("region")`. */
  function RewriteQuery(q: map<string, seq<string>>): (r: map<string, seq<string>>)
    ensures QueryRewritten(q, r)
  {
    q[SslMode := [Require]] - {Region}
  }

  /** The rewritten query is determined by the description above: any map
      meeting it is the one `RewriteQuery` produces. */
  lemma QueryRewrittenIsRewriteQuery(before: map<string, seq<string>>, after: map<string, seq<string>>)
    ensures QueryRewritten(before, after) <==> after == RewriteQuery(before)
  {
    if QueryRewritten(before, after) {
      var r := RewriteQuery(before);
      assert after.Keys == r.Keys;
      assert forall k :: k in after ==> after[k] == r[k];
    }
  }

  /** Rewriting an already rewritten query changes nothing. */
  lemma RewriteQueryIdempotent(q: map<string, seq<string>>)
    ensures RewriteQuery(RewriteQuery(q)) == RewriteQuery(q)
  {
    var once := RewriteQuery(q);
    var twice := RewriteQuery(once);
    assert twice.Keys == once.Keys;
  }

  /** `dbURI.User = url.UserPassword(username, token)` followed by the query
      rewrite: the shared second half of every preparer. */
  function Authenticate(u: Url, username: string, token: string): (r: Url)
    ensures r.rest == u.rest
    ensures r.user == Some(UserInfo(username, Some(token)))
    ensures QueryRewritten(u.query, r.query)
  {
    Url(u.rest, Some(UserInfo(username, Some(token))), RewriteQuery(u.query))
  }

  /** The username rule of `PrepareDSQLURI` and `prepareDSQLMigration`:
      whatever name the userinfo holds when it is present (even an empty
      one), otherwise `admin`. */
  function UriUserOrDefault(user: Option<UserInfo>): (name: string)
    ensures user.Some? ==> name == user.value.username
    ensures user.None? ==> name == DefaultUsername
  {
    match user
    case Some(info) => info.username
    case None => DefaultUsername
  }
}
